=== FILE: README.md ===
# fps-cuber game-state model

A Dafny model of the bookkeeping core of `src/fps-cuber.js`, a browser
first-person shooter: cubes and spheres spawn at random, the player shoots
them for score and health, gets hurt by landing on them or by their tops,
and dies on the killing floor or at zero health.

With the rendering and the physics engine left out, the script is a small
state machine over its module-level variables: `playerHealthPoints`, `score`,
`shotsFired`, the one-way flags `isDead` and `neverForget`, the jump flag
`moveUp`, the latched input (`isMouseDown` and the movement keys),
`lastFireTime`, the vertical velocity accumulator, the list of live targets
and the list of bullets. The model holds them in one immutable `GameState`
(`World`). Each listener is a pure function from a state to a `Transition`:
the new state plus the ordered list of `Effect`s it asks of the renderer,
physics engine, audio and overlay.

- `Hazard`: the player's collide listener, the killing floor's collide
  listener and `gameOver`.
- `Weapon`: the fire gate, the bullet's collide listener and the 5000 ms
  expiry timer that listener schedules.
- `Controls`: key, mouse and pointer-lock listeners, and the vertical part of
  `handleMovement`.
- `Loop`: the `animate` frame, split at its `world.step` call into a start
  (death check, vertical update) and an end (spawns, fire gate, chase gate),
  the `Event` type and `Step`/`Run`, which fold handlers over any sequence of
  events.
- `Hud`: `mapIntToHeartString`. `Collision`: the collision-filter groups and
  masks, as `bv32`.
- `Traces`: properties of whole runs: the state invariant, bounds, one-way
  quantities, the single overlay, shot spacing and the single jump impulse.

Collisions, timers, key presses and the two halves of each frame are
explicit events. The collide events of a frame's physics step come between
its start and its end; the state records that a frame is inside its step
(`stepping`). Random draws,
the clock (`performance.now()`) and the camera height are event payloads.
Physics bodies are natural-number ids handed out by a counter (`nextBody`).
The pending expiry timers are a FIFO queue (`expiries`). All of them have the
same 5000 ms delay, so they fire in the order they were scheduled.

Quirks of the code that the model keeps:
- The bullet's collide listener is never removed. Every collide event of a
  bullet still in the physics world counts another shot and schedules another
  expiry (`Traces.CollideIsNotOneShot`).
- The expiry timer's filter compares `{mesh, body}` records with the bare
  mesh, so `bullets` only ever grows (`Weapon.OnBulletExpiry`,
  `Traces.RunGrows`).
- `moveUp` starts `true`.
- `animate` checks `isDead` only when a frame starts. A contact during the
  physics step that kills the player does not stop the rest of that frame:
  after the game-over requests it still spawns, fires and pushes
  (`Traces.DeathMidFrame`). Only the next frame is idle.
- `gameOver` zeroes health and refreshes the read-out before its `isDead`
  guard.
- The contact decrement is unclamped until `gameOver` runs, and the read-out
  is first refreshed with the unclamped `health - 1`
  (`Hazard.DamageShownUnclamped`). That is negative only when a player who
  already has no health left, and so is already dead, is hit again.

## Model

| member | source | states |
|---|---|---|
| World.Init | src/fps-cuber.js:2-34 | start-up state: 3 health, zero score and shots, alive, no aggro, `moveUp` true, not inside a frame, no targets, bullets, timers or removed bullets, `lastFireTime` and vertical velocity 0, all input flags off, first body id `firstBody` |
| Traces.InitInv | src/fps-cuber.js:2-34 | the start-up state satisfies the invariant `World.Inv` |
| World.Find | src/fps-cuber.js:81 | `worldObjects.find` by body id: `None` exactly when no target has that id, otherwise a listed target with that id |
| World.Without | src/fps-cuber.js:423 | `filter(c => c !== cube)`: keeps exactly the entries other than the removed one |
| World.WithoutRemovesOne | src/fps-cuber.js:423 | with distinct bodies, removing the entry at `k` leaves the others in their original order |
| World.WithoutKeepsDistinct | src/fps-cuber.js:423 | filtering keeps target bodies distinct |
| Hazard.GameOver | src/fps-cuber.js:510-526 | always health 0 and `isDead`, nothing else changes; the overlay appears once on the first call and never on later calls, which only refresh the read-out |
| Hazard.GameOverFirstCall | src/fps-cuber.js:514-525 | the first call, for a living player, plays the damage and death sounds, shows the overlay, pauses the music and unlocks the controls |
| Hazard.GameOverIfSpent | src/fps-cuber.js:94-96 | the `playerHealthPoints <= 0` guard ends the game exactly when health is spent, and otherwise changes nothing |
| Hazard.TopHit | src/fps-cuber.js:83-92 | a vertical contact costs exactly one point, clamped to 0 by `gameOver` when spent; the damage sound plays; the overlay shows only if this kills a living player |
| Hazard.FatalHit | src/fps-cuber.js:84-92 | a contact that spends the last point leaves health 0 and `isDead`, plays the damage sound, and shows the overlay only for a living player |
| Hazard.OnPlayerCollide | src/fps-cuber.js:79-99 | a non-target body changes nothing; a vertical contact (abs(normal y) > 0.5) costs one point, and death when spent; a side contact only runs the game-over guard; the overlay shows only when a living player dies |
| Hazard.DamageShownUnclamped | src/fps-cuber.js:84-85 | the read-out is first refreshed with the unclamped `health - 1` |
| Hazard.OnKillFloorCollide | src/fps-cuber.js:372-376 | a player contact ends the game; any other body changes nothing |
| Hazard.PlayerCollideIsInert | src/fps-cuber.js:79-99 | the player's contact handler never spawns, fires, jumps or pushes |
| Traces.SideContactIsHarmless | src/fps-cuber.js:82-96 | in any reachable state a side contact leaves the whole state unchanged |
| Weapon.FireBulletIfNeeded | src/fps-cuber.js:450-456 | fires iff the button is held and at least `FireRate` (1000/600*60 = 100) ms have passed; a shot appends a fresh bullet body and sets `lastFireTime`, which changes only when a shot fires |
| Weapon.HitTarget | src/fps-cuber.js:417-433 | a hit removes that target, adds exactly one point, and heals one point only below full health |
| Weapon.CountShot | src/fps-cuber.js:435-446 | every collide event counts one shot, raises aggro once the count passes 100, and queues an expiry for this bullet |
| Weapon.OnBulletCollide | src/fps-cuber.js:416-447 | a live bullet's contact counts a shot and queues an expiry; a target contact removes exactly that target, scores one and heals below full; other contacts leave targets, score and health unchanged; bullet list, removed bullets, frame phase, death, input and clock unchanged |
| Weapon.OnBulletExpiry | src/fps-cuber.js:439-446 | the oldest timer uncounts one shot and takes exactly its own bullet out of the physics world, but the bullet list is unchanged; with no timer pending nothing happens |
| Weapon.BulletEventsAreInert | src/fps-cuber.js:416-447 | the bullet's collide and expiry closures never spawn, fire, jump or push |
| Controls.Latch | src/fps-cuber.js:171-183 | a movement key sets exactly its own flag; other keys leave the input alone |
| Controls.OnKeyDown | src/fps-cuber.js:169-192 | Space, through the gate (not ascending and at or below 1.8), plays the jump sound, gives the impulse and sets `moveUp`, and otherwise does nothing; the input becomes exactly the latch of the key (W/S/A/D set their own flag, other keys leave it alone); W asks for the music and no other key requests anything |
| Controls.OnKeyUp | src/fps-cuber.js:194-212 | Space clears `moveUp`; the input becomes exactly the latch of the key released (a movement key clears its own flag, other keys leave it alone); no effects |
| Controls.OnPointerLockChange | src/fps-cuber.js:220-231 | `moveUp` cleared; only the lock flag of the input changes; music resumes on lock only while health > 0, pauses on unlock |
| Controls.OnMouseButton | src/fps-cuber.js:528-529 | the held-button flag takes the new value, no other input flag or part of the state changes, and nothing is requested |
| Controls.VerticalVelocity | src/fps-cuber.js:538-545 | ascending adds exactly `gravity`; falling above 1.8 adds gravity but never below `-jumpSpeed`; on the ground resets to 0; a non-positive velocity stays non-positive |
| Loop.ChaseGate | src/fps-cuber.js:379-384 | never while ascending; always with aggro; otherwise exactly when the draw is below `shotsFired / 100` |
| Loop.ChaseOdds | src/fps-cuber.js:379-384 | for a draw in [0, 1): 100 or more shots chase as surely as aggro; with no shot counted and no aggro, nothing chases |
| Loop.Spawn | src/fps-cuber.js:239-262 | a new target with the next body id is appended; nothing else changes |
| Loop.SpawnTargets | src/fps-cuber.js:263-268 | each draw below 0.05 appends one fresh target, with the next body id, after the old targets in order; vitals, bullets and clock unchanged |
| Loop.OnFrameStart | src/fps-cuber.js:585-588 | a dead player's frame does nothing; otherwise the vertical accumulator is updated and the physics step begins; nothing else changes and nothing is requested |
| Loop.OnFrameEnd | src/fps-cuber.js:589-593 | inside a frame, with no death check, it finishes the frame (`Loop.Finishes`): spawns, a shot iff the fire gate opens, a push of every listed target iff the chase gate opens, no overlay, vitals unchanged, the frame over; outside a frame nothing happens |
| Loop.AfterStep | src/fps-cuber.js:590-593 | `Loop.Finishes`, in order: the old targets kept followed by one fresh target per draw below 0.05; a shot iff the fire gate opens, appending the id after the spawns to the bullet list and setting `lastFireTime`; iff the chase gate opens, a push of the bodies of all targets left; no overlay or jump; vitals unchanged; the frame is over |
| Loop.Chase | src/fps-cuber.js:379-391 | a push iff the gate opens, and then exactly one push naming every listed target's body |
| Hud.HeartStringShowsHealth | src/fps-cuber.js:145-158 | exactly `num` hearts for 0..3 and the empty string otherwise, read back as `num` hearts |
| Hud.CountRepeatedHearts | src/fps-cuber.js:145-158 | `n` hearts side by side read back as `n` |
| Collision.GroupsAreDistinctBits | src/fps-cuber.js:25-28 | the four collision groups are disjoint bits |
| Collision.MaskSeparation | src/fps-cuber.js:78 | the player's mask excludes bullets and a bullet's mask excludes the player; both admit targets and ground |
| Traces.StepKeepsInv | src/fps-cuber.js:79-593 | every event keeps the invariant: health in [0, 3], zero health implies death, one timer per counted shot, distinct ids below the counter, velocity non-positive |
| Traces.RunKeepsInv | src/fps-cuber.js:79-593 | the invariant holds after any sequence of events |
| Traces.Bounds | src/fps-cuber.js:429-433 | from start-up, health stays in [0, 3] and score and shot count stay non-negative over any events |
| Traces.RunGrows | src/fps-cuber.js:426 | over any events the score never drops, death and aggro are never undone, and bullets are never removed from the list |
| Traces.RunOverlays | src/fps-cuber.js:514-522 | over any events the overlay shows once if the run kills a living player and never otherwise |
| Traces.OverlayAtMostOnce | src/fps-cuber.js:510-526 | from start-up the overlay shows exactly once if the player ends dead, otherwise never |
| Traces.RunClock | src/fps-cuber.js:450-456 | over any events consecutive shots are at least `FireRate` apart and `lastFireTime` is the last shot's time |
| Traces.ShotBudget | src/fps-cuber.js:14 | a run fires at most one bullet per 100 ms of the span `lastFireTime` advances |
| Traces.RunNoJump | src/fps-cuber.js:184-189 | once ascending, no jump impulse is given and `moveUp` stays set until a Space release or a pointer-lock change |
| Traces.DeadFramesAreIdle | src/fps-cuber.js:585-586 | once dead and past the frame in which death came, frames change nothing and request nothing |
| Traces.DeathMidFrame | src/fps-cuber.js:585-593 | a top contact during the step that kills a living player with one point left shows the overlay, and the same frame still fires when the gate is open |
| Traces.HitRemovesExactlyTarget | src/fps-cuber.js:417-426 | a live bullet hitting the target at index `k` leaves the other targets in order and scores one |
| Traces.CollideIsNotOneShot | src/fps-cuber.js:416-446 | two contacts of the same live bullet count two shots and queue two expiries |

## Left out

- Rendering (Three.js scene, meshes, materials, camera, renderer) and the DOM
  overlay, score and health elements, restart button and star link: these are
  output. The model requests them as effects (`ShowGameOver`, `ShowHealth`,
  `ShowScore`).
- The physics engine: world stepping, broadphase, contact generation, impulses
  and forces. Collisions arrive as events. The pair test of the collision
  filter lives inside the engine, so only the mask bits are modelled.
- Delivery of engine events: the model takes collide, key, mouse and timer
  events at any point, also outside a frame's physics step and after death,
  while the engine raises collide events only during `world.step` of a frame
  that started alive, and the browser runs listeners and timers only between
  frames. The extra orders only add runs. Collide events are only honoured for
  bodies still in the physics world (`Weapon.Live`) and for targets still
  listed.
- Horizontal movement in `handleMovement`, the direction normalisation of the
  chase push, and the colour lerp of `updateScreenTint`: floating-point vector
  math. `ShowHealth` stands for the read-out and the tint refresh.
- The camera pin to 1.8 at line 544: it is overwritten by the body-position
  copy at line 570 in the same call, so only the velocity accumulator is
  kept.
- Procedural terrain (`createGround`, `createFloor`, `createKillingFloor`) and
  the random size, position and colour of spawned targets.
- Audio playback, `setTimeout`, `requestAnimationFrame` and `location.reload`.
  Sounds and music are effects. Timer expiry is an event. The 0 ms timer that
  removes a hit target's body becomes the `DespawnObject` effect.
- Floating point: times, velocities and draws are mathematical reals. The
  fire rate 1000 / 600 * 60 is exactly 100 in IEEE doubles too.
- Score text formatting (`updateScoreDisplay`) is reduced to the score value.

=== FILE: collision.dfy ===
/**
  Collision-filter groups and masks of the game's physics bodies, as 32-bit
  words (the engine combines them with bitwise `&` on 32-bit integers).
  The pair test itself belongs to the physics engine and is not modelled;
  this module only states what the masks the game chooses contain.
 */
module Collision {

  const PlayerGroup: bv32 := 1
  const BulletGroup: bv32 := 2
  const ObjectGroup: bv32 := 4
  const GroundGroup: bv32 := 8

  /** The player's mask: every group except bullets (`~bulletCollisionGroup`). */
  const PlayerMask: bv32 := !BulletGroup
  /** A bullet's mask: target objects and ground only. */
  const BulletMask: bv32 := ObjectGroup | GroundGroup
  /** Target objects and terrain collide with everything (`~0`). */
  const EverythingMask: bv32 := !0

  /** True iff `mask` has a bit in common with `group`. */
  predicate Admits(mask: bv32, group: bv32) {
    mask & group != 0
  }

  /** The four groups are pairwise disjoint single bits. */
  lemma GroupsAreDistinctBits()
    ensures PlayerGroup & BulletGroup == 0 && PlayerGroup & ObjectGroup == 0
    ensures PlayerGroup & GroundGroup == 0 && BulletGroup & ObjectGroup == 0
    ensures BulletGroup & GroundGroup == 0 && ObjectGroup & GroundGroup == 0
  {
  }

  /** Neither the player's mask admits bullets nor a bullet's mask admits the
      player; a bullet admits targets and ground, and so does the player. */
  lemma MaskSeparation()
    ensures !Admits(PlayerMask, BulletGroup) && !Admits(BulletMask, PlayerGroup)
    ensures Admits(BulletMask, ObjectGroup) && Admits(BulletMask, GroundGroup)
    ensures Admits(PlayerMask, ObjectGroup) && Admits(PlayerMask, GroundGroup)
    ensures Admits(EverythingMask, PlayerGroup) && Admits(EverythingMask, BulletGroup)
  {
  }
}

=== FILE: controls.dfy ===
/**
  Player input: the key, mouse and pointer-lock listeners, and the vertical
  part of the per-frame movement update.
 */
module Controls {
  import opened World

  /** The keys the listeners react to; every other key is `OtherKey`. */
  datatype Key = KeyW | KeyS | KeyA | KeyD | Space | OtherKey

  /** The movement flag a key latches; Space and other keys latch none. */
  function Held(input: Input, key: Key): bool {
    match key
    case KeyW => input.moveForward
    case KeyS => input.moveBackward
    case KeyA => input.moveLeft
    case KeyD => input.moveRight
    case _ => false
  }

  predicate IsMovementKey(key: Key) {
    key == KeyW || key == KeyS || key == KeyA || key == KeyD
  }

  /** Sets the movement flag of `key` to `down`; other keys change nothing. */
  function Latch(input: Input, key: Key, down: bool): (r: Input)
    ensures IsMovementKey(key) ==> Held(r, key) == down
    ensures forall k :: k != key ==> Held(r, k) == Held(input, k)
    ensures !IsMovementKey(key) ==> r == input
    ensures r.pointerLocked == input.pointerLocked && r.isMouseDown == input.isMouseDown
  {
    match key
    case KeyW => input.(moveForward := down)
    case KeyS => input.(moveBackward := down)
    case KeyA => input.(moveLeft := down)
    case KeyD => input.(moveRight := down)
    case _ => input
  }

  /** The jump gate of the Space key-down: not already ascending, and at or
      below the resting eye height. */
  predicate CanJump(s: GameState, height: real) {
    !s.moveUp && height <= GroundHeight
  }

  /** `onKeyDown`, with `height` the camera's current height. W also starts the
      background music; Space jumps only through the gate and then marks the
      player as ascending. */
  function OnKeyDown(s: GameState, key: Key, height: real): (t: Transition)
    ensures key == Space ==> (JumpImpulse in t.effects <==> CanJump(s, height))
    ensures key == Space ==> t.state.moveUp == (s.moveUp || height <= GroundHeight)
    ensures key != Space ==> JumpImpulse !in t.effects && t.state.moveUp == s.moveUp
    ensures forall k :: Held(t.state.input, k) == (Held(s.input, k) || (k == key && IsMovementKey(k)))
    ensures t.state.(moveUp := s.moveUp, input := s.input) == s
    ensures t.state.input.isMouseDown == s.input.isMouseDown
    ensures ShowGameOver !in t.effects
    ensures key == Space && CanJump(s, height) ==> t.effects == [PlaySound(Jump), JumpImpulse]
    ensures key == Space && !CanJump(s, height) ==> |t.effects| == 0
    ensures key == KeyW ==> t.effects == [PlayMusic]
    ensures key != Space && key != KeyW ==> |t.effects| == 0
    ensures t.state.input == Latch(s.input, key, true)
  {
    if key == Space then
      if CanJump(s, height) then Transition(s.(moveUp := true), [PlaySound(Jump), JumpImpulse])
      else Transition(s, [])
    else
      Transition(s.(input := Latch(s.input, key, true)), if key == KeyW then [PlayMusic] else [])
  }

  /** `onKeyUp`: a movement key clears its flag, Space clears `moveUp`. */
  function OnKeyUp(s: GameState, key: Key): (t: Transition)
    ensures key == Space ==> !t.state.moveUp
    ensures key != Space ==> t.state.moveUp == s.moveUp
    ensures forall k :: Held(t.state.input, k) == (Held(s.input, k) && k != key)
    ensures t.state.(moveUp := s.moveUp, input := s.input) == s
    ensures t.state.input.isMouseDown == s.input.isMouseDown
    ensures t.state.input == Latch(s.input, key, false)
    ensures |t.effects| == 0
  {
    if key == Space then Transition(s.(moveUp := false), [])
    else Transition(s.(input := Latch(s.input, key, false)), [])
  }

  /** `onPointerLockChange`: locking resumes the music while the player has
      health, unlocking pauses it; either way `moveUp` is cleared. */
  function OnPointerLockChange(s: GameState, locked: bool): (t: Transition)
    ensures !t.state.moveUp && t.state.input.pointerLocked == locked
    ensures PlayMusic in t.effects <==> locked && s.health > 0
    ensures PauseMusic in t.effects <==> !locked
    ensures t.state.input == s.input.(pointerLocked := locked)
    ensures t.state.(moveUp := s.moveUp, input := s.input) == s
    ensures t.state.input.isMouseDown == s.input.isMouseDown
    ensures ShowGameOver !in t.effects
  {
    var fx := if locked then (if s.health > 0 then [PlayMusic] else []) else [PauseMusic];
    Transition(s.(moveUp := false, input := s.input.(pointerLocked := locked)), fx)
  }

  /** The mouse-button listeners: only the held flag changes. */
  function OnMouseButton(s: GameState, down: bool): (t: Transition)
    ensures t.state.input.isMouseDown == down
    ensures t.state.input == s.input.(isMouseDown := down)
    ensures t.state.(input := s.input) == s
    ensures forall k :: Held(t.state.input, k) == Held(s.input, k)
    ensures |t.effects| == 0
  {
    Transition(s.(input := s.input.(isMouseDown := down)), [])
  }

  /** The vertical part of `handleMovement`: ascending accumulates gravity;
      falling above the ground accumulates gravity but never faster than
      `JumpSpeed`; at or below the ground the accumulator is reset. */
  function VerticalVelocity(moveUp: bool, height: real, vy: real): (r: real)
    ensures moveUp ==> r == vy + Gravity && r < vy
    ensures !moveUp && height > GroundHeight ==>
      r >= -JumpSpeed && r >= vy + Gravity && (r == vy + Gravity || r == -JumpSpeed)
    ensures !moveUp && height <= GroundHeight ==> r == 0.0
    ensures !moveUp ==> r >= -JumpSpeed
    ensures vy <= 0.0 ==> r <= 0.0
  {
    if moveUp then vy + Gravity
    else if height > GroundHeight then
      (if vy + Gravity > -JumpSpeed then vy + Gravity else -JumpSpeed)
    else 0.0
  }
}

=== FILE: hazard.dfy ===
/**
  Damage and death: the player body's collide listener, the killing floor's
  collide listener and `gameOver`.
 */
module Hazard {
  import opened World

  /** The number of game-over overlays among `fx`. */
  function CountOverlays(fx: seq<Effect>): (n: nat) {
    multiset(fx)[ShowGameOver]
  }

  lemma CountOverlaysAppend(a: seq<Effect>, b: seq<Effect>)
    ensures CountOverlays(a + b) == CountOverlays(a) + CountOverlays(b)
  {
    assert multiset(a + b) == multiset(a) + multiset(b);
  }

  /** `gameOver`: health goes to 0 and the read-out is refreshed on every call;
      only the first call (before `isDead` is set) shows the overlay, plays the
      sounds, stops the music and releases the pointer. */
  function GameOver(s: GameState): (t: Transition)
    ensures t.state.health == 0 && t.state.isDead
    ensures t.state == s.(health := 0, isDead := true)
    ensures CountOverlays(t.effects) == if s.isDead then 0 else 1
    ensures s.isDead ==> t.effects == [ShowHealth(0)]
  {
    Transition(s.(health := 0, isDead := true), GameOverEffects(s.isDead))
  }

  /** The requests of one `gameOver` call, given whether the player was
      already dead: the health refresh always, the rest only the first time. */
  function GameOverEffects(wasDead: bool): (fx: seq<Effect>)
    ensures CountOverlays(fx) == if wasDead then 0 else 1
    ensures |fx| > 0 && fx[0] == ShowHealth(0)
    ensures Inert(fx)
  {
    if wasDead then [ShowHealth(0)]
    else [ShowHealth(0), PlaySound(Oof), ShowGameOver, PlaySound(Dead), PauseMusic, UnlockControls]
  }

  /** The `if (playerHealthPoints <= 0) gameOver()` guard the contact handler repeats. */
  function GameOverIfSpent(s: GameState): (t: Transition)
    ensures t.state.health == (if s.health <= 0 then 0 else s.health)
    ensures t.state.isDead == (s.isDead || s.health <= 0)
    ensures t.state.(health := s.health, isDead := s.isDead) == s
    ensures CountOverlays(t.effects) == if !s.isDead && t.state.isDead then 1 else 0
  {
    if s.health <= 0 then GameOver(s) else Transition(s, [])
  }

  /** A contact normal with vertical part above 0.5 in magnitude: the player
      struck the top or bottom face, not a side. */
  predicate Vertical(normalY: real) {
    normalY > 0.5 || normalY < -0.5
  }

  /** The damage branch of the player's collide listener: one health point
      lost, then the game-over guard before and after the damage sound, and
      once more after the branch. */
  function TopHit(s: GameState): (t: Transition)
    ensures t.state.health == (if s.health - 1 <= 0 then 0 else s.health - 1)
    ensures t.state.isDead == (s.isDead || s.health - 1 <= 0)
    ensures t.state.(health := s.health, isDead := s.isDead) == s
    ensures PlaySound(Oof) in t.effects
    ensures CountOverlays(t.effects) == if !s.isDead && t.state.isDead then 1 else 0
  {
    if s.health - 1 > 0 then
      Transition(s.(health := s.health - 1), [ShowHealth(s.health - 1), PlaySound(Oof)])
    else
      FatalHit(s)
  }

  /** A damaging contact that leaves no health: the guard before the sound
      ends the game; the guard after it and the one after the branch find the
      player dead and only refresh the read-out. */
  function FatalHit(s: GameState): (t: Transition)
    requires s.health - 1 <= 0
    ensures t.state == s.(health := 0, isDead := true)
    ensures PlaySound(Oof) in t.effects
    ensures CountOverlays(t.effects) == if s.isDead then 0 else 1
  {
    var hurt := s.health - 1;
    var first := GameOver(s.(health := hurt));
    // the two later guards call gameOver on a dead player: read-out refresh only
    var later := [PlaySound(Oof), ShowHealth(0), ShowHealth(0)];
    var fx := [ShowHealth(hurt)] + first.effects + later;
    CountOverlaysAppend([ShowHealth(hurt)], first.effects);
    CountOverlaysAppend([ShowHealth(hurt)] + first.effects, later);
    assert fx[1 + |first.effects|] == PlaySound(Oof);
    Transition(first.state, fx)
  }

  /** The player body's collide listener. Only a live target counts; a vertical
      contact costs one health point, with the game-over guard run before and
      after the damage sound; the guard runs once more for any target contact. */
  function OnPlayerCollide(s: GameState, other: BodyId, normalY: real): (t: Transition)
    ensures Find(s.worldObjects, other).None? ==> t == Transition(s, [])
    ensures Find(s.worldObjects, other).Some? && Vertical(normalY) ==>
      && t.state.health == (if s.health - 1 <= 0 then 0 else s.health - 1)
      && t.state.isDead == (s.isDead || s.health - 1 <= 0)
      && PlaySound(Oof) in t.effects
    ensures Find(s.worldObjects, other).Some? && !Vertical(normalY) ==>
      t.state.health == (if s.health <= 0 then 0 else s.health) &&
      t.state.isDead == (s.isDead || s.health <= 0)
    ensures t.state.(health := s.health, isDead := s.isDead) == s
    ensures CountOverlays(t.effects) == if !s.isDead && t.state.isDead then 1 else 0
  {
    var target := Find(s.worldObjects, other);
    if target.None? then
      Transition(s, [])
    else if Vertical(normalY) then
      TopHit(s)
    else
      GameOverIfSpent(s)
  }

  /** The killing floor's collide listener: any contact by the player ends the game. */
  function OnKillFloorCollide(s: GameState, byPlayer: bool): (t: Transition)
    ensures byPlayer ==> t.state.isDead && t.state.health == 0
    ensures !byPlayer ==> t == Transition(s, [])
    ensures t.state.(health := s.health, isDead := s.isDead) == s
    ensures CountOverlays(t.effects) == if !s.isDead && t.state.isDead then 1 else 0
  {
    if byPlayer then GameOver(s) else Transition(s, [])
  }

  /** The contact handlers only report, sound and stop: they never create a
      body or set one in motion. */
  lemma PlayerCollideIsInert(s: GameState, other: BodyId, normalY: real)
    ensures Inert(OnPlayerCollide(s, other, normalY).effects)
  {
    if Find(s.worldObjects, other).Some? {
      if Vertical(normalY) {
        TopHitIsInert(s);
      } else {
        GameOverIsInert(s);
      }
    }
  }

  lemma KillFloorIsInert(s: GameState, byPlayer: bool)
    ensures Inert(OnKillFloorCollide(s, byPlayer).effects)
  {
    GameOverIsInert(s);
  }

  lemma GameOverIsInert(s: GameState)
    ensures Inert(GameOver(s).effects) && Inert(GameOverIfSpent(s).effects)
  {
  }

  lemma TopHitIsInert(s: GameState)
    ensures Inert(TopHit(s).effects)
  {
    if s.health - 1 <= 0 {
      FatalHitIsInert(s);
    }
  }

  lemma FatalHitIsInert(s: GameState)
    requires s.health - 1 <= 0
    ensures Inert(FatalHit(s).effects)
  {
    var hurt := s.health - 1;
    var first := GameOver(s.(health := hurt));
    InertAppend([ShowHealth(hurt)], first.effects);
    InertAppend([ShowHealth(hurt)] + first.effects, [PlaySound(Oof), ShowHealth(0), ShowHealth(0)]);
  }

  /** The first call of `gameOver` plays the damage and death sounds, pauses
      the music and releases the pointer, besides showing the overlay. */
  lemma GameOverFirstCall(s: GameState)
    requires !s.isDead
    ensures var fx := GameOver(s).effects;
      && PlaySound(Oof) in fx && PlaySound(Dead) in fx && ShowGameOver in fx
      && PauseMusic in fx && UnlockControls in fx
  {
  }

  /** The read-out is first refreshed with the decremented, unclamped health
      (below zero only when a player with no health left is hit again); `gameOver` zeroes it after. */
  lemma DamageShownUnclamped(s: GameState, other: BodyId, normalY: real)
    requires Find(s.worldObjects, other).Some? && Vertical(normalY)
    ensures OnPlayerCollide(s, other, normalY).effects[0] == ShowHealth(s.health - 1)
  {
    TopHitShowsUnclamped(s);
  }

  lemma TopHitShowsUnclamped(s: GameState)
    ensures TopHit(s).effects[0] == ShowHealth(s.health - 1)
  {
    if s.health - 1 <= 0 {
      FatalHitShowsUnclamped(s);
      assert TopHit(s).effects == FatalHit(s).effects;
    } else {
      assert TopHit(s).effects == [ShowHealth(s.health - 1), PlaySound(Oof)];
    }
  }

  lemma FatalHitShowsUnclamped(s: GameState)
    requires s.health - 1 <= 0
    ensures FatalHit(s).effects[0] == ShowHealth(s.health - 1)
  {
    var first := GameOver(s.(health := s.health - 1));
    var later := [PlaySound(Oof), ShowHealth(0), ShowHealth(0)];
    assert ([ShowHealth(s.health - 1)] + first.effects + later)[0] == ShowHealth(s.health - 1);
  }
}

=== FILE: hud.dfy ===
/**
  The health read-out: a row of heart emoji, one per health point.
 */
module Hud {

  /** One heart as the game writes it: U+2764 followed by the emoji
      presentation selector U+FE0F. */
  const Heart: string := "\U{2764}\U{FE0F}"

  /** `n` copies of `s` side by side. */
  function Repeat(s: string, n: nat): (r: string)
    ensures |r| == n * |s|
  {
    if n == 0 then "" else s + Repeat(s, n - 1)
  }

  /** The text shown for `num` health points (the switch of mapIntToHeartString). */
  function HeartString(num: int): (r: string) {
    match num
    case 3 => Heart + Heart + Heart
    case 2 => Heart + Heart
    case 1 => Heart
    case 0 => ""
    case _ => ""
  }

  /** The number of whole hearts at the start of `s`: reads a read-out back. */
  function CountHearts(s: string): (n: nat)
    decreases |s|
  {
    if |s| >= |Heart| && s[..|Heart|] == Heart then 1 + CountHearts(s[|Heart|..]) else 0
  }

  /** Reading `n` repeated hearts back gives `n`. */
  lemma {:induction false} CountRepeatedHearts(n: nat)
    ensures CountHearts(Repeat(Heart, n)) == n
  {
    if n > 0 {
      var r := Repeat(Heart, n);
      assert r[..|Heart|] == Heart;
      assert r[|Heart|..] == Repeat(Heart, n - 1);
      CountRepeatedHearts(n - 1);
    }
  }

  /** The read-out holds exactly `num` hearts for 0..3 and is empty otherwise. */
  lemma HeartStringShowsHealth(num: int)
    ensures 0 <= num <= 3 ==> HeartString(num) == Repeat(Heart, num)
    ensures !(0 <= num <= 3) ==> HeartString(num) == ""
    ensures CountHearts(HeartString(num)) == if 0 <= num <= 3 then num else 0
    ensures |HeartString(num)| == if 0 <= num <= 3 then 2 * num else 0
  {
    if 0 <= num <= 3 {
      assert Repeat(Heart, 1) == Heart;
      assert Repeat(Heart, 2) == Heart + Heart;
      assert Repeat(Heart, 3) == Heart + (Heart + Heart);
      CountRepeatedHearts(num);
    }
  }
}

=== FILE: loop.dfy ===
/**
  The frame loop and the event interface: every frame half, contact, timer,
  key, mouse and pointer-lock event is one pure step on the game state. The
  physics step itself is outside the model: a frame is split at its
  `world.step` call into a start and an end event, and the collide events the
  step raises arrive in between.
 */
module Loop {
  import opened World
  import Hazard
  import Weapon
  import Controls

  /** Everything that drives the game. Random draws (`Math.random()`, in [0, 1)),
      the clock and the camera height are payloads. */
  datatype Event =
    | FrameStart(height: real)
    | FrameEnd(cubeDraw: real, sphereDraw: real, now: real, chaseDraw: real)
    | PlayerCollide(other: BodyId, normalY: real)
    | KillFloorCollide(byPlayer: bool)
    | BulletCollide(bullet: BodyId, other: BodyId)
    | BulletExpiry
    | KeyDown(key: Controls.Key, height: real)
    | KeyUp(key: Controls.Key)
    | PointerLockChange(locked: bool)
    | MouseDown
    | MouseUp

  /** The gate of `moveWorldOjectsTowardsPlayer` for the random draw `r`:
      closed while ascending, open for good once aggro, and otherwise open
      with chance shotsFired / 100. */
  function ChaseGate(moveUp: bool, neverForget: bool, shotsFired: int, r: real): (open: bool)
    ensures moveUp ==> !open
    ensures !moveUp && neverForget ==> open
    ensures !moveUp && !neverForget ==> (open <==> r < shotsFired as real / 100.0)
  {
    if moveUp then false
    else if !neverForget then r < shotsFired as real / 100.0
    else true
  }

  /** For a draw in [0, 1): from 100 shots on the targets chase as surely as
      with aggro, and with no shot counted they never chase without it. */
  lemma ChaseOdds(moveUp: bool, neverForget: bool, shotsFired: int, r: real)
    requires 0.0 <= r < 1.0
    ensures !moveUp && shotsFired >= AggroThreshold ==> ChaseGate(moveUp, neverForget, shotsFired, r)
    ensures !neverForget && shotsFired <= 0 ==> !ChaseGate(moveUp, neverForget, shotsFired, r)
  {
  }

  /** `createRandomCube` / `createRandomSphere`: a new target with the
      engine's next body id at the end of the object list. */
  function Spawn(s: GameState, shape: Shape): (t: Transition)
    ensures t.state.worldObjects == s.worldObjects + [WorldObject(s.nextBody, shape)]
    ensures t.state.nextBody == s.nextBody + 1
    ensures t.state.(worldObjects := s.worldObjects, nextBody := s.nextBody) == s
    ensures t.effects == [SpawnObject(WorldObject(s.nextBody, shape))]
  {
    var obj := WorldObject(s.nextBody, shape);
    Transition(s.(worldObjects := s.worldObjects + [obj], nextBody := s.nextBody + 1), [SpawnObject(obj)])
  }

  /** How many targets a frame's two spawn draws create. */
  function Spawned(cubeDraw: real, sphereDraw: real): (n: nat)
    ensures n <= 2
  {
    (if cubeDraw < SpawnChance then 1 else 0) + (if sphereDraw < SpawnChance then 1 else 0)
  }

  /** `randomCubeManagement` then `randomSphereManagement`: each spawns when
      its draw is below `SpawnChance`. */
  function SpawnTargets(s: GameState, cubeDraw: real, sphereDraw: real): (t: Transition)
    ensures |t.state.worldObjects| == |s.worldObjects| + Spawned(cubeDraw, sphereDraw)
    ensures t.state.nextBody == s.nextBody + Spawned(cubeDraw, sphereDraw)
    ensures t.state.worldObjects[..|s.worldObjects|] == s.worldObjects
    ensures forall j :: |s.worldObjects| <= j < |t.state.worldObjects| ==>
      s.nextBody <= t.state.worldObjects[j].body < t.state.nextBody
    ensures SameVitals(s, t.state)
    ensures t.state.bullets == s.bullets && t.state.lastFireTime == s.lastFireTime
    ensures t.state.velocityY == s.velocityY
    ensures forall j :: 0 <= j < |t.effects| ==> t.effects[j].SpawnObject?
  {
    var a := if cubeDraw < SpawnChance then Spawn(s, Cube) else Transition(s, []);
    var b := if sphereDraw < SpawnChance then Spawn(a.state, Sphere) else Transition(a.state, []);
    Transition(b.state, a.effects + b.effects)
  }

  /** True iff `fx` asks for the targets to be pushed towards the player. */
  predicate Pushes(fx: seq<Effect>) {
    exists j :: 0 <= j < |fx| && fx[j].PushObjects?
  }

  lemma PushesAppend(a: seq<Effect>, b: seq<Effect>)
    ensures Pushes(a + b) <==> Pushes(a) || Pushes(b)
  {
    if Pushes(a) {
      var j :| 0 <= j < |a| && a[j].PushObjects?;
      assert (a + b)[j] == a[j];
    }
    if Pushes(b) {
      var j :| 0 <= j < |b| && b[j].PushObjects?;
      assert (a + b)[|a| + j] == b[j];
    }
    if Pushes(a + b) {
      var j :| 0 <= j < |a + b| && (a + b)[j].PushObjects?;
      if j < |a| {
        assert a[j] == (a + b)[j];
      } else {
        assert b[j - |a|] == (a + b)[j];
      }
    }
  }

  /** `animate` up to its physics step: nothing at all once the player is
      dead (the loop is not re-requested); otherwise `handleMovement` updates
      the vertical accumulator and the step begins. */
  function OnFrameStart(s: GameState, height: real): (t: Transition)
    ensures s.isDead ==> t == Transition(s, [])
    ensures !s.isDead ==>
      && t.state.stepping
      && t.state.velocityY == Controls.VerticalVelocity(s.moveUp, height, s.velocityY)
    ensures t.state.(velocityY := s.velocityY, stepping := s.stepping) == s
    ensures |t.effects| == 0
  {
    if s.isDead then Transition(s, [])
    else Transition(s.(velocityY := Controls.VerticalVelocity(s.moveUp, height, s.velocityY), stepping := true), [])
  }

  /** `t` finishes, with the given draws and clock, a frame whose physics
      step left `s`: the spawns keep the old targets as a prefix and add
      `Spawned` fresh ones; a shot is fired, taking the next id as its
      bullet, iff the fire gate opens; all targets left are pushed iff the
      chase gate opens; the vitals and the vertical velocity are untouched,
      nothing shows the game-over screen or jumps, and the frame is over. */
  predicate Finishes(s: GameState, t: Transition, cubeDraw: real, sphereDraw: real, now: real, chaseDraw: real) {
    && !t.state.stepping
    && ShowGameOver !in t.effects && JumpImpulse !in t.effects
    && SameVitals(s, t.state) && t.state.velocityY == s.velocityY
    && Weapon.FireTimes(t.effects) == (if Weapon.CanFire(s, now) then [now] else [])
    && t.state.lastFireTime == (if Weapon.CanFire(s, now) then now else s.lastFireTime)
    && (Pushes(t.effects) <==> ChaseGate(s.moveUp, s.neverForget, s.shotsFired, chaseDraw))
    && (ChaseGate(s.moveUp, s.neverForget, s.shotsFired, chaseDraw) ==>
          PushObjects(Bodies(t.state.worldObjects)) in t.effects)
    && Spawns(s.worldObjects, s.nextBody, t.state.worldObjects, Spawned(cubeDraw, sphereDraw))
    && t.state.nextBody == s.nextBody + Spawned(cubeDraw, sphereDraw) + (if Weapon.CanFire(s, now) then 1 else 0)
    && t.state.bullets == s.bullets + (if Weapon.CanFire(s, now) then [s.nextBody + Spawned(cubeDraw, sphereDraw)] else [])
  }

  /** `animate` after its physics step: the spawns, the fire gate and the
      chase gate, then the frame is over. Death is checked only when a frame
      starts, so a player killed by a contact during the step still sees this
      frame spawn, fire and push. Outside a frame nothing happens. */
  function OnFrameEnd(s: GameState, cubeDraw: real, sphereDraw: real, now: real, chaseDraw: real): (t: Transition)
    ensures !s.stepping ==> t == Transition(s, [])
    ensures s.stepping ==> Finishes(s, t, cubeDraw, sphereDraw, now, chaseDraw)
  {
    if !s.stepping then Transition(s, [])
    else AfterStep(s, cubeDraw, sphereDraw, now, chaseDraw)
  }

  /** The first part after the physics step: the spawns. Nothing here fires
      or pushes. */
  function Prepare(s: GameState, cubeDraw: real, sphereDraw: real): (t: Transition)
    ensures SameVitals(s, t.state)
    ensures t.state.bullets == s.bullets && t.state.lastFireTime == s.lastFireTime
    ensures t.state.velocityY == s.velocityY
    ensures Weapon.FireTimes(t.effects) == []
    ensures !Pushes(t.effects) && ShowGameOver !in t.effects && JumpImpulse !in t.effects
    ensures Spawns(s.worldObjects, s.nextBody, t.state.worldObjects, Spawned(cubeDraw, sphereDraw))
    ensures t.state.nextBody == s.nextBody + Spawned(cubeDraw, sphereDraw)
  {
    var spawned := SpawnTargets(s, cubeDraw, sphereDraw);
    OnlySpawns(spawned.effects);
    spawned
  }

  /** `objs` holds the targets `before` in order, followed by `n` fresh ones
      whose ids were handed out from `from` on. */
  predicate Spawns(before: seq<WorldObject>, from: BodyId, objs: seq<WorldObject>, n: nat) {
    && |objs| == |before| + n
    && objs[..|before|] == before
    && forall j :: |before| <= j < |objs| ==> from <= objs[j].body < from + n
  }

  /** Effects that only spawn targets neither fire nor push. */
  lemma {:induction false} OnlySpawns(fx: seq<Effect>)
    requires forall j :: 0 <= j < |fx| ==> fx[j].SpawnObject?
    ensures Weapon.FireTimes(fx) == [] && !Pushes(fx) && ShowGameOver !in fx && JumpImpulse !in fx
  {
    if |fx| > 0 {
      OnlySpawns(fx[1..]);
      assert fx == [fx[0]] + fx[1..];
      PushesAppend([fx[0]], fx[1..]);
    }
  }

  /** The push request of `moveWorldOjectsTowardsPlayer`, if its gate opens. */
  function Chase(s: GameState, chaseDraw: real, targets: seq<WorldObject>): (fx: seq<Effect>)
    ensures Pushes(fx) <==> ChaseGate(s.moveUp, s.neverForget, s.shotsFired, chaseDraw)
    ensures ChaseGate(s.moveUp, s.neverForget, s.shotsFired, chaseDraw) ==> fx == [PushObjects(Bodies(targets))]
    ensures Weapon.FireTimes(fx) == [] && ShowGameOver !in fx && JumpImpulse !in fx
  {
    if ChaseGate(s.moveUp, s.neverForget, s.shotsFired, chaseDraw) then
      var fx := [PushObjects(Bodies(targets))];
      assert fx[0].PushObjects?;
      fx
    else []
  }

  /** Shot effects neither push nor show the overlay. */
  lemma OnlyShots(fx: seq<Effect>)
    requires forall j :: 0 <= j < |fx| ==> fx[j] == PlaySound(Shoot) || fx[j].SpawnBullet?
    ensures !Pushes(fx) && ShowGameOver !in fx && JumpImpulse !in fx
  {
  }

  /** What a frame does after its physics step: the spawns, the fire gate and
      the chase gate, in that order; then the frame is over. */
  function AfterStep(s: GameState, cubeDraw: real, sphereDraw: real, now: real, chaseDraw: real): (t: Transition)
    ensures Finishes(s, t, cubeDraw, sphereDraw, now, chaseDraw)
  {
    AfterStepEffects(s, cubeDraw, sphereDraw, now, chaseDraw);
    AfterStepState(s, cubeDraw, sphereDraw, now, chaseDraw);
    FireAndChase(Prepare(s, cubeDraw, sphereDraw), now, chaseDraw)
  }

  /** The effects half of `AfterStep`'s contract: the spawns emit no shot
      and no push, so the fire and chase gates decide them alone. */
  lemma AfterStepEffects(s: GameState, cubeDraw: real, sphereDraw: real, now: real, chaseDraw: real)
    ensures var t := FireAndChase(Prepare(s, cubeDraw, sphereDraw), now, chaseDraw);
      && Weapon.FireTimes(t.effects) == (if Weapon.CanFire(s, now) then [now] else [])
      && (Pushes(t.effects) <==> ChaseGate(s.moveUp, s.neverForget, s.shotsFired, chaseDraw))
      && (ChaseGate(s.moveUp, s.neverForget, s.shotsFired, chaseDraw) ==>
            PushObjects(Bodies(t.state.worldObjects)) in t.effects)
      && ShowGameOver !in t.effects && JumpImpulse !in t.effects
  {
    var p := Prepare(s, cubeDraw, sphereDraw);
    assert Weapon.CanFire(p.state, now) == Weapon.CanFire(s, now);
    assert Weapon.FireTimes(p.effects) + (if Weapon.CanFire(s, now) then [now] else [])
        == (if Weapon.CanFire(s, now) then [now] else []);
  }

  /** The state half of `AfterStep`'s contract: the spawns come before the
      shot, so the bullet takes the first id after the new targets. */
  lemma AfterStepState(s: GameState, cubeDraw: real, sphereDraw: real, now: real, chaseDraw: real)
    ensures var t := FireAndChase(Prepare(s, cubeDraw, sphereDraw), now, chaseDraw);
      && !t.state.stepping
      && t.state.lastFireTime == (if Weapon.CanFire(s, now) then now else s.lastFireTime)
      && SameVitals(s, t.state) && t.state.velocityY == s.velocityY
      && Spawns(s.worldObjects, s.nextBody, t.state.worldObjects, Spawned(cubeDraw, sphereDraw))
      && t.state.nextBody == s.nextBody + Spawned(cubeDraw, sphereDraw) + (if Weapon.CanFire(s, now) then 1 else 0)
      && t.state.bullets == s.bullets + (if Weapon.CanFire(s, now) then [s.nextBody + Spawned(cubeDraw, sphereDraw)] else [])
  {
    var p := Prepare(s, cubeDraw, sphereDraw);
    assert Weapon.CanFire(p.state, now) == Weapon.CanFire(s, now);
  }

  /** What follows the spawns, after `prepared`: the fire gate, then
      the chase gate over the targets left after the shot. */
  function FireAndChase(prepared: Transition, now: real, chaseDraw: real): (t: Transition)
    ensures var p := prepared.state;
      && Weapon.FireTimes(t.effects) == Weapon.FireTimes(prepared.effects) + (if Weapon.CanFire(p, now) then [now] else [])
      && t.state.lastFireTime == (if Weapon.CanFire(p, now) then now else p.lastFireTime)
      && (Pushes(t.effects) <==> Pushes(prepared.effects) || ChaseGate(p.moveUp, p.neverForget, p.shotsFired, chaseDraw))
      && (ChaseGate(p.moveUp, p.neverForget, p.shotsFired, chaseDraw) ==> PushObjects(Bodies(t.state.worldObjects)) in t.effects)
      && (ShowGameOver in t.effects <==> ShowGameOver in prepared.effects)
      && (JumpImpulse in t.effects <==> JumpImpulse in prepared.effects)
    ensures var p := prepared.state;
      && SameVitals(p, t.state) && !t.state.stepping
      && t.state.worldObjects == p.worldObjects && t.state.velocityY == p.velocityY
      && t.state.nextBody == p.nextBody + (if Weapon.CanFire(p, now) then 1 else 0)
      && t.state.bullets == p.bullets + (if Weapon.CanFire(p, now) then [p.nextBody] else [])
  {
    var fired := Weapon.FireBulletIfNeeded(prepared.state, now);
    var push := Chase(prepared.state, chaseDraw, fired.state.worldObjects);
    OnlyShots(fired.effects);
    Weapon.FireTimesAppend(prepared.effects, fired.effects);
    Weapon.FireTimesAppend(prepared.effects + fired.effects, push);
    PushesAppend(prepared.effects, fired.effects);
    PushesAppend(prepared.effects + fired.effects, push);
    Transition(fired.state.(stepping := false), prepared.effects + fired.effects + push)
  }

  /** One event, dispatched to the frame loop, the weapon, the hazards or
      the input listeners. */
  function Step(s: GameState, e: Event): (t: Transition) {
    if e.FrameStart? || e.FrameEnd? || e.BulletCollide? || e.BulletExpiry? then ShotStep(s, e)
    else if e.PlayerCollide? || e.KillFloorCollide? then ContactStep(s, e)
    else InputStep(s, e)
  }

  function ShotStep(s: GameState, e: Event): (t: Transition)
    requires e.FrameStart? || e.FrameEnd? || e.BulletCollide? || e.BulletExpiry?
  {
    match e
    case FrameStart(height) => OnFrameStart(s, height)
    case FrameEnd(cubeDraw, sphereDraw, now, chaseDraw) => OnFrameEnd(s, cubeDraw, sphereDraw, now, chaseDraw)
    case BulletCollide(bullet, other) => Weapon.OnBulletCollide(s, bullet, other)
    case BulletExpiry => Weapon.OnBulletExpiry(s)
  }

  function ContactStep(s: GameState, e: Event): (t: Transition)
    requires e.PlayerCollide? || e.KillFloorCollide?
  {
    match e
    case PlayerCollide(other, normalY) => Hazard.OnPlayerCollide(s, other, normalY)
    case KillFloorCollide(byPlayer) => Hazard.OnKillFloorCollide(s, byPlayer)
  }

  function InputStep(s: GameState, e: Event): (t: Transition)
    requires e.KeyDown? || e.KeyUp? || e.PointerLockChange? || e.MouseDown? || e.MouseUp?
  {
    match e
    case KeyDown(key, height) => Controls.OnKeyDown(s, key, height)
    case KeyUp(key) => Controls.OnKeyUp(s, key)
    case PointerLockChange(locked) => Controls.OnPointerLockChange(s, locked)
    case MouseDown => Controls.OnMouseButton(s, true)
    case MouseUp => Controls.OnMouseButton(s, false)
  }

  /** A sequence of events, the effects of each step in order. */
  function Run(s: GameState, es: seq<Event>): (r: Transition)
    decreases |es|
  {
    if |es| == 0 then Transition(s, [])
    else
      var first := Step(s, es[0]);
      var rest := Run(first.state, es[1..]);
      Transition(rest.state, first.effects + rest.effects)
  }
}

=== FILE: traces.dfy ===
/**
  Properties of whole runs: the invariant every reachable state keeps, the
  one-way flags, the single game-over overlay, the spacing of shots and the
  single jump impulse per Space press.
 */
module Traces {
  import opened World
  import Hazard
  import Weapon
  import Controls
  import opened Loop

  // ---------------------------------------------------------------------------
  // The state invariant
  // ---------------------------------------------------------------------------

  lemma InitInv(firstBody: BodyId)
    ensures Inv(Init(firstBody))
  {
  }

  lemma SpawnKeepsInv(s: GameState, shape: Shape)
    requires Inv(s)
    ensures Inv(Spawn(s, shape).state)
  {
    var t := Spawn(s, shape).state;
    var os := t.worldObjects;
    forall i, j | 0 <= i < j < |os| ensures os[i].body != os[j].body {
      if j == |s.worldObjects| {
        assert os[i] == s.worldObjects[i];
      } else {
        assert os[i] == s.worldObjects[i] && os[j] == s.worldObjects[j];
      }
    }
  }

  lemma FireKeepsInv(s: GameState, now: real)
    requires Inv(s)
    ensures Inv(Weapon.FireBulletIfNeeded(s, now).state)
  {
    var t := Weapon.FireBulletIfNeeded(s, now).state;
    if Weapon.CanFire(s, now) {
      forall i, j | 0 <= i < j < |t.bullets| ensures t.bullets[i] != t.bullets[j] {
        assert t.bullets[i] == s.bullets[i];
      }
      forall j | 0 <= j < |t.expiries| ensures t.expiries[j] in t.bullets {
        assert t.expiries[j] in s.bullets;
      }
      assert (set b | b in s.bullets) <= (set b | b in t.bullets);
    }
  }

  lemma PrepareKeepsInv(s: GameState, cubeDraw: real, sphereDraw: real)
    requires Inv(s)
    ensures Inv(Prepare(s, cubeDraw, sphereDraw).state)
  {
    var a := if cubeDraw < SpawnChance then Spawn(s, Cube) else Transition(s, []);
    SpawnKeepsInv(s, Cube);
    SpawnKeepsInv(a.state, Sphere);
  }

  lemma FrameStartKeepsInv(s: GameState, height: real)
    requires Inv(s)
    ensures Inv(OnFrameStart(s, height).state)
  {
  }

  lemma FrameEndKeepsInv(s: GameState, cubeDraw: real, sphereDraw: real, now: real, chaseDraw: real)
    requires Inv(s)
    ensures Inv(OnFrameEnd(s, cubeDraw, sphereDraw, now, chaseDraw).state)
  {
    if s.stepping {
      var prepared := Prepare(s, cubeDraw, sphereDraw);
      PrepareKeepsInv(s, cubeDraw, sphereDraw);
      FireKeepsInv(prepared.state, now);
    }
  }

  lemma BulletCollideKeepsInv(s: GameState, bullet: BodyId, other: BodyId)
    requires Inv(s)
    ensures Inv(Weapon.OnBulletCollide(s, bullet, other).state)
  {
    var t := Weapon.OnBulletCollide(s, bullet, other).state;
    if Weapon.Live(s, bullet) {
      var target := Find(s.worldObjects, other);
      if target.Some? {
        WithoutKeepsDistinct(s.worldObjects, target.value);
        forall j | 0 <= j < |t.worldObjects| ensures t.worldObjects[j].body < t.nextBody {
          assert t.worldObjects[j] in s.worldObjects;
        }
      }
      forall j | 0 <= j < |t.expiries| ensures t.expiries[j] in t.bullets {
        if j < |s.expiries| {
          assert t.expiries[j] == s.expiries[j];
        }
      }
    }
  }

  lemma ExpiryKeepsInv(s: GameState)
    requires Inv(s)
    ensures Inv(Weapon.OnBulletExpiry(s).state)
  {
    if |s.expiries| > 0 {
      var t := Weapon.OnBulletExpiry(s).state;
      forall j | 0 <= j < |t.expiries| ensures t.expiries[j] in t.bullets {
        assert t.expiries[j] == s.expiries[j + 1];
      }
      assert s.expiries[0] in s.bullets;
    }
  }

  lemma StepKeepsInv(s: GameState, e: Event)
    requires Inv(s)
    ensures Inv(Step(s, e).state)
  {
    if e.FrameStart? {
      FrameStartKeepsInv(s, e.height);
      assert Step(s, e) == OnFrameStart(s, e.height);
    } else if e.FrameEnd? {
      FrameEndKeepsInv(s, e.cubeDraw, e.sphereDraw, e.now, e.chaseDraw);
      assert Step(s, e) == OnFrameEnd(s, e.cubeDraw, e.sphereDraw, e.now, e.chaseDraw);
    } else if e.BulletCollide? {
      BulletCollideKeepsInv(s, e.bullet, e.other);
      assert Step(s, e) == Weapon.OnBulletCollide(s, e.bullet, e.other);
    } else if e.BulletExpiry? {
      ExpiryKeepsInv(s);
      assert Step(s, e) == Weapon.OnBulletExpiry(s);
    } else if e.PlayerCollide? || e.KillFloorCollide? {
      ContactKeepsInv(s, e);
    } else {
      InputKeepsInv(s, e);
    }
  }

  lemma ContactKeepsInv(s: GameState, e: Event)
    requires Inv(s) && (e.PlayerCollide? || e.KillFloorCollide?)
    ensures Inv(Step(s, e).state)
  {
    if e.PlayerCollide? {
      PlayerCollideKeepsInv(s, e.other, e.normalY);
      assert Step(s, e) == Hazard.OnPlayerCollide(s, e.other, e.normalY);
    } else {
      KillFloorKeepsInv(s, e.byPlayer);
      assert Step(s, e) == Hazard.OnKillFloorCollide(s, e.byPlayer);
    }
  }

  lemma KillFloorKeepsInv(s: GameState, byPlayer: bool)
    requires Inv(s)
    ensures Inv(Hazard.OnKillFloorCollide(s, byPlayer).state)
  {
    var t := Hazard.OnKillFloorCollide(s, byPlayer).state;
    assert t == s.(health := t.health, isDead := t.isDead);
  }

  lemma PlayerCollideKeepsInv(s: GameState, other: BodyId, normalY: real)
    requires Inv(s)
    ensures Inv(Hazard.OnPlayerCollide(s, other, normalY).state)
  {
    var t := Hazard.OnPlayerCollide(s, other, normalY).state;
    assert t == s.(health := t.health, isDead := t.isDead);
  }

  lemma InputKeepsInv(s: GameState, e: Event)
    requires Inv(s) && (e.KeyDown? || e.KeyUp? || e.PointerLockChange? || e.MouseDown? || e.MouseUp?)
    ensures Inv(Step(s, e).state)
  {
    if e.KeyDown? {
      assert Step(s, e) == Controls.OnKeyDown(s, e.key, e.height);
    } else if e.KeyUp? {
      assert Step(s, e) == Controls.OnKeyUp(s, e.key);
    } else if e.PointerLockChange? {
      assert Step(s, e) == Controls.OnPointerLockChange(s, e.locked);
    } else {
      assert Step(s, e) == Controls.OnMouseButton(s, e.MouseDown?);
    }
  }

  /** Every state a run reaches from an invariant state keeps the invariant. */
  lemma {:induction false} RunKeepsInv(s: GameState, es: seq<Event>)
    requires Inv(s)
    ensures Inv(Run(s, es).state)
    decreases |es|
  {
    if |es| > 0 {
      StepKeepsInv(s, es[0]);
      RunKeepsInv(Step(s, es[0]).state, es[1..]);
    }
  }

  /** From start-up, health stays within [0, 3], and score and the shot
      counter never go negative, whatever the events. */
  lemma Bounds(firstBody: BodyId, es: seq<Event>)
    ensures 0 <= Run(Init(firstBody), es).state.health <= MaxHealth
    ensures Run(Init(firstBody), es).state.score >= 0
    ensures Run(Init(firstBody), es).state.shotsFired >= 0
  {
    InitInv(firstBody);
    RunKeepsInv(Init(firstBody), es);
  }

  // ---------------------------------------------------------------------------
  // One-way quantities: score, death, aggro and the bullet list
  // ---------------------------------------------------------------------------

  /** `b` is `a` or later: the score has not dropped, death and aggro have not
      been undone, and the bullet list has only grown at its end. */
  predicate Grows(a: GameState, b: GameState) {
    && a.score <= b.score
    && (a.isDead ==> b.isDead)
    && (a.neverForget ==> b.neverForget)
    && a.bullets <= b.bullets
  }

  lemma StepGrows(s: GameState, e: Event)
    ensures Grows(s, Step(s, e).state)
  {
    if e.FrameStart? {
      assert Step(s, e) == OnFrameStart(s, e.height);
    } else if e.FrameEnd? {
      assert Step(s, e) == OnFrameEnd(s, e.cubeDraw, e.sphereDraw, e.now, e.chaseDraw);
    } else if e.BulletCollide? {
      assert Step(s, e) == Weapon.OnBulletCollide(s, e.bullet, e.other);
    } else if e.BulletExpiry? {
      assert Step(s, e) == Weapon.OnBulletExpiry(s);
    } else if e.PlayerCollide? || e.KillFloorCollide? {
      ContactGrows(s, e);
    } else {
      InputGrows(s, e);
    }
  }

  lemma ContactGrows(s: GameState, e: Event)
    requires e.PlayerCollide? || e.KillFloorCollide?
    ensures Grows(s, Step(s, e).state)
  {
    if e.PlayerCollide? {
      assert Step(s, e) == Hazard.OnPlayerCollide(s, e.other, e.normalY);
    } else {
      assert Step(s, e) == Hazard.OnKillFloorCollide(s, e.byPlayer);
    }
  }

  lemma InputGrows(s: GameState, e: Event)
    requires e.KeyDown? || e.KeyUp? || e.PointerLockChange? || e.MouseDown? || e.MouseUp?
    ensures Grows(s, Step(s, e).state)
  {
    if e.KeyDown? {
      assert Step(s, e) == Controls.OnKeyDown(s, e.key, e.height);
    } else if e.KeyUp? {
      assert Step(s, e) == Controls.OnKeyUp(s, e.key);
    } else if e.PointerLockChange? {
      assert Step(s, e) == Controls.OnPointerLockChange(s, e.locked);
    } else {
      assert Step(s, e) == Controls.OnMouseButton(s, e.MouseDown?);
    }
  }

  /** Over any run the score never falls, a dead player stays dead, aggro is
      never withdrawn and no bullet ever leaves the bullet list. */
  lemma {:induction false} RunGrows(s: GameState, es: seq<Event>)
    ensures Grows(s, Run(s, es).state)
    decreases |es|
  {
    if |es| > 0 {
      var first := Step(s, es[0]);
      StepGrows(s, es[0]);
      RunGrows(first.state, es[1..]);
    }
  }

  // ---------------------------------------------------------------------------
  // The game-over overlay
  // ---------------------------------------------------------------------------

  /** One event shows the overlay exactly when it kills a living player. */
  lemma StepOverlays(s: GameState, e: Event)
    ensures Hazard.CountOverlays(Step(s, e).effects) == if !s.isDead && Step(s, e).state.isDead then 1 else 0
  {
    if e.FrameStart? {
      assert Step(s, e) == OnFrameStart(s, e.height);
    } else if e.FrameEnd? {
      assert Step(s, e) == OnFrameEnd(s, e.cubeDraw, e.sphereDraw, e.now, e.chaseDraw);
    } else if e.BulletCollide? {
      assert Step(s, e) == Weapon.OnBulletCollide(s, e.bullet, e.other);
    } else if e.BulletExpiry? {
      assert Step(s, e) == Weapon.OnBulletExpiry(s);
    } else if e.PlayerCollide? {
      assert Step(s, e) == Hazard.OnPlayerCollide(s, e.other, e.normalY);
    } else if e.KillFloorCollide? {
      assert Step(s, e) == Hazard.OnKillFloorCollide(s, e.byPlayer);
    } else {
      InputOverlays(s, e);
    }
  }

  lemma InputOverlays(s: GameState, e: Event)
    requires e.KeyDown? || e.KeyUp? || e.PointerLockChange? || e.MouseDown? || e.MouseUp?
    ensures Hazard.CountOverlays(Step(s, e).effects) == 0 && Step(s, e).state.isDead == s.isDead
  {
    if e.KeyDown? {
      assert Step(s, e) == Controls.OnKeyDown(s, e.key, e.height);
    } else if e.KeyUp? {
      assert Step(s, e) == Controls.OnKeyUp(s, e.key);
    } else if e.PointerLockChange? {
      assert Step(s, e) == Controls.OnPointerLockChange(s, e.locked);
    } else {
      assert Step(s, e) == Controls.OnMouseButton(s, e.MouseDown?);
    }
  }

  /** Over any run the overlay is shown once if the run kills a living
      player and never otherwise: later deaths only refresh the read-out. */
  lemma {:induction false} RunOverlays(s: GameState, es: seq<Event>)
    ensures Hazard.CountOverlays(Run(s, es).effects) == if !s.isDead && Run(s, es).state.isDead then 1 else 0
    decreases |es|
  {
    if |es| > 0 {
      var first := Step(s, es[0]);
      var rest := Run(first.state, es[1..]);
      StepOverlays(s, es[0]);
      StepGrows(s, es[0]);
      RunOverlays(first.state, es[1..]);
      RunGrows(first.state, es[1..]);
      Hazard.CountOverlaysAppend(first.effects, rest.effects);
    }
  }

  /** From start-up the overlay appears at most once, and exactly once if the
      player ends up dead. */
  lemma OverlayAtMostOnce(firstBody: BodyId, es: seq<Event>)
    ensures Hazard.CountOverlays(Run(Init(firstBody), es).effects) == if Run(Init(firstBody), es).state.isDead then 1 else 0
  {
    RunOverlays(Init(firstBody), es);
  }

  // ---------------------------------------------------------------------------
  // The fire rate
  // ---------------------------------------------------------------------------

  /** Every shot time in `ts` lies at least `FireRate` after the one before
      it, and the first at least `FireRate` after `t0`. */
  ghost predicate Spaced(t0: real, ts: seq<real>) {
    forall i :: 0 <= i < |ts| ==> ts[i] - (if i == 0 then t0 else ts[i - 1]) >= FireRate
  }

  /** What one transition does to the shot clock: either no shot and the
      last fire time kept, or one shot at the new last fire time, at least
      `FireRate` after the previous one. */
  ghost predicate ClockStep(s: GameState, t: Transition) {
    var ts := Weapon.FireTimes(t.effects);
    || (|ts| == 0 && t.state.lastFireTime == s.lastFireTime)
    || (ts == [t.state.lastFireTime] && t.state.lastFireTime - s.lastFireTime >= FireRate)
  }

  lemma StepClock(s: GameState, e: Event)
    ensures ClockStep(s, Step(s, e))
  {
    if e.FrameStart? {
      assert Step(s, e) == OnFrameStart(s, e.height);
    } else if e.FrameEnd? {
      assert Step(s, e) == OnFrameEnd(s, e.cubeDraw, e.sphereDraw, e.now, e.chaseDraw);
    } else if e.BulletCollide? || e.BulletExpiry? || e.PlayerCollide? || e.KillFloorCollide? {
      ReactionClock(s, e);
    } else {
      InputClock(s, e);
    }
  }

  lemma ReactionClock(s: GameState, e: Event)
    requires e.BulletCollide? || e.BulletExpiry? || e.PlayerCollide? || e.KillFloorCollide?
    ensures Weapon.FireTimes(Step(s, e).effects) == [] && Step(s, e).state.lastFireTime == s.lastFireTime
  {
    var t := Step(s, e);
    if e.BulletCollide? {
      assert t == Weapon.OnBulletCollide(s, e.bullet, e.other);
      Weapon.BulletEventsAreInert(s, e.bullet, e.other);
    } else if e.BulletExpiry? {
      assert t == Weapon.OnBulletExpiry(s);
      Weapon.BulletEventsAreInert(s, 0, 0);
    } else if e.PlayerCollide? {
      assert t == Hazard.OnPlayerCollide(s, e.other, e.normalY);
      Hazard.PlayerCollideIsInert(s, e.other, e.normalY);
    } else {
      assert t == Hazard.OnKillFloorCollide(s, e.byPlayer);
      Hazard.KillFloorIsInert(s, e.byPlayer);
    }
    Weapon.NoFireTimes(t.effects);
  }

  lemma InputClock(s: GameState, e: Event)
    requires e.KeyDown? || e.KeyUp? || e.PointerLockChange? || e.MouseDown? || e.MouseUp?
    ensures Weapon.FireTimes(Step(s, e).effects) == [] && Step(s, e).state.lastFireTime == s.lastFireTime
  {
    var t := Step(s, e);
    if e.KeyDown? {
      assert t == Controls.OnKeyDown(s, e.key, e.height);
    } else if e.KeyUp? {
      assert t == Controls.OnKeyUp(s, e.key);
    } else if e.PointerLockChange? {
      assert t == Controls.OnPointerLockChange(s, e.locked);
    } else {
      assert t == Controls.OnMouseButton(s, e.MouseDown?);
    }
    Weapon.NoFireTimes(t.effects);
  }

  lemma SpacedCons(t0: real, t1: real, ts: seq<real>)
    requires t1 - t0 >= FireRate && Spaced(t1, ts)
    ensures Spaced(t0, [t1] + ts)
  {
    var us := [t1] + ts;
    forall i | 0 <= i < |us| ensures us[i] - (if i == 0 then t0 else us[i - 1]) >= FireRate {
      if i > 0 {
        assert us[i] == ts[i - 1];
        SpacedAt(t1, ts, i - 1);
        if i > 1 {
          assert us[i - 1] == ts[i - 2];
        }
      }
    }
  }

  /** The shots of `r` are spaced from `t0` on, and its last fire time is
      the last shot, or `t0` when there is none. */
  ghost predicate Clocked(t0: real, r: Transition) {
    var ts := Weapon.FireTimes(r.effects);
    Spaced(t0, ts) && r.state.lastFireTime == if |ts| == 0 then t0 else ts[|ts| - 1]
  }

  /** A step that keeps the shot clock, followed by a clocked run, is clocked. */
  lemma ClockCompose(s: GameState, first: Transition, rest: Transition)
    requires ClockStep(s, first) && Clocked(first.state.lastFireTime, rest)
    ensures Clocked(s.lastFireTime, Transition(rest.state, first.effects + rest.effects))
  {
    Weapon.FireTimesAppend(first.effects, rest.effects);
    var ts1 := Weapon.FireTimes(first.effects);
    var ts2 := Weapon.FireTimes(rest.effects);
    if |ts1| == 0 {
      assert ts1 + ts2 == ts2;
    } else {
      SpacedCons(s.lastFireTime, first.state.lastFireTime, ts2);
    }
  }

  /** Over any run the shots are spaced at least `FireRate` (100 ms) apart,
      starting from the last shot before the run, and the last fire time ends
      at the last shot. */
  lemma {:induction false} RunClock(s: GameState, es: seq<Event>)
    ensures Clocked(s.lastFireTime, Run(s, es))
    decreases |es|
  {
    if |es| > 0 {
      var first := Step(s, es[0]);
      var rest := Run(first.state, es[1..]);
      StepClock(s, es[0]);
      RunClock(first.state, es[1..]);
      ClockCompose(s, first, rest);
    }
  }

  lemma SpacedAt(t0: real, ts: seq<real>, i: nat)
    requires Spaced(t0, ts) && i < |ts|
    ensures ts[i] - (if i == 0 then t0 else ts[i - 1]) >= FireRate
  {
  }

  /** `n` shots spaced `FireRate` apart span at least `n * FireRate`. */
  lemma {:induction false} SpacedSpan(t0: real, ts: seq<real>)
    requires Spaced(t0, ts)
    ensures (|ts| as real) * FireRate <= (if |ts| == 0 then t0 else ts[|ts| - 1]) - t0
    decreases |ts|
  {
    if |ts| > 0 {
      var init := ts[..|ts| - 1];
      assert Spaced(t0, init) by {
        forall i | 0 <= i < |init| ensures init[i] - (if i == 0 then t0 else init[i - 1]) >= FireRate {
          assert init[i] == ts[i];
          SpacedAt(t0, ts, i);
          if i > 0 {
            assert init[i - 1] == ts[i - 1];
          }
        }
      }
      SpacedSpan(t0, init);
      var before := if |init| == 0 then t0 else init[|init| - 1];
      var last := |ts| - 1;
      SpacedAt(t0, ts, last);
      assert last > 0 ==> ts[last - 1] == init[|init| - 1];
      assert (|ts| as real) * FireRate == (|init| as real) * FireRate + FireRate;
    }
  }

  /** However the mouse is pressed, a run fires at most one bullet per
      `FireRate` milliseconds of its span. */
  lemma ShotBudget(s: GameState, es: seq<Event>)
    ensures (|Weapon.FireTimes(Run(s, es).effects)| as real) * FireRate <= Run(s, es).state.lastFireTime - s.lastFireTime
  {
    RunClock(s, es);
    ClockBudget(s.lastFireTime, Run(s, es));
  }

  lemma ClockBudget(t0: real, r: Transition)
    requires Clocked(t0, r)
    ensures (|Weapon.FireTimes(r.effects)| as real) * FireRate <= r.state.lastFireTime - t0
  {
    SpacedSpan(t0, Weapon.FireTimes(r.effects));
  }

  // ---------------------------------------------------------------------------
  // Jumping
  // ---------------------------------------------------------------------------

  /** Events that leave the ascending flag alone: all but a Space release
      and a pointer-lock change. */
  predicate KeepsAscent(e: Event) {
    e != KeyUp(Controls.Space) && !e.PointerLockChange?
  }

  lemma StepNoJump(s: GameState, e: Event)
    requires s.moveUp && KeepsAscent(e)
    ensures Step(s, e).state.moveUp && JumpImpulse !in Step(s, e).effects
  {
    if e.FrameStart? {
      assert Step(s, e) == OnFrameStart(s, e.height);
    } else if e.FrameEnd? {
      assert Step(s, e) == OnFrameEnd(s, e.cubeDraw, e.sphereDraw, e.now, e.chaseDraw);
    } else if e.BulletCollide? || e.BulletExpiry? {
      Weapon.BulletEventsAreInert(s, if e.BulletCollide? then e.bullet else 0, if e.BulletCollide? then e.other else 0);
    } else if e.PlayerCollide? {
      Hazard.PlayerCollideIsInert(s, e.other, e.normalY);
    } else if e.KillFloorCollide? {
      Hazard.KillFloorIsInert(s, e.byPlayer);
    } else if e.KeyDown? {
      assert Step(s, e) == Controls.OnKeyDown(s, e.key, e.height);
    } else if e.KeyUp? {
      assert Step(s, e) == Controls.OnKeyUp(s, e.key);
    } else {
      assert Step(s, e) == Controls.OnMouseButton(s, e.MouseDown?);
    }
  }

  /** Once a jump has started, no further jump impulse is given until Space
      is released or the pointer lock changes, however often Space is
      pressed. */
  lemma {:induction false} RunNoJump(s: GameState, es: seq<Event>)
    requires s.moveUp
    requires forall i :: 0 <= i < |es| ==> KeepsAscent(es[i])
    ensures Run(s, es).state.moveUp && JumpImpulse !in Run(s, es).effects
    decreases |es|
  {
    if |es| > 0 {
      var first := Step(s, es[0]);
      StepNoJump(s, es[0]);
      assert forall i :: 0 <= i < |es[1..]| ==> es[1..][i] == es[i + 1];
      RunNoJump(first.state, es[1..]);
    }
  }

  // ---------------------------------------------------------------------------
  // Death, hits and contacts
  // ---------------------------------------------------------------------------

  /** Once the player is dead and the frame in which death came is over,
      frames change nothing and ask for nothing. */
  lemma {:induction false} DeadFramesAreIdle(s: GameState, es: seq<Event>)
    requires s.isDead && !s.stepping
    requires forall i :: 0 <= i < |es| ==> es[i].FrameStart? || es[i].FrameEnd?
    ensures Run(s, es).state == s && |Run(s, es).effects| == 0
    decreases |es|
  {
    if |es| > 0 {
      if es[0].FrameStart? {
        assert Step(s, es[0]) == OnFrameStart(s, es[0].height);
      } else {
        assert Step(s, es[0]) == OnFrameEnd(s, es[0].cubeDraw, es[0].sphereDraw, es[0].now, es[0].chaseDraw);
      }
      assert Step(s, es[0]) == Transition(s, []);
      assert forall i :: 0 <= i < |es[1..]| ==> es[1..][i] == es[i + 1];
      DeadFramesAreIdle(s, es[1..]);
    }
  }

  /** Death is checked only when a frame starts: when a contact during the
      physics step kills the player, the overlay is requested and yet the
      rest of that frame still fires a bullet when the gate is open. */
  lemma DeathMidFrame(s: GameState, other: BodyId, normalY: real, cubeDraw: real, sphereDraw: real, now: real, chaseDraw: real)
    requires s.stepping && !s.isDead && s.health == 1
    requires Find(s.worldObjects, other).Some? && Hazard.Vertical(normalY) && Weapon.CanFire(s, now)
    ensures var hit := Hazard.OnPlayerCollide(s, other, normalY);
      var rest := OnFrameEnd(hit.state, cubeDraw, sphereDraw, now, chaseDraw);
      && Hazard.CountOverlays(hit.effects) == 1 && hit.state.isDead
      && Weapon.FireTimes(rest.effects) == [now] && rest.state.isDead
  {
  }

  /** A live bullet striking the target at index `k` removes exactly that
      target, keeping the others in order, and scores one point. */
  lemma HitRemovesExactlyTarget(s: GameState, bullet: BodyId, k: nat)
    requires Inv(s) && Weapon.Live(s, bullet) && k < |s.worldObjects|
    ensures var t := Weapon.OnBulletCollide(s, bullet, s.worldObjects[k].body).state;
      t.worldObjects == s.worldObjects[..k] + s.worldObjects[k + 1..] && t.score == s.score + 1
  {
    var os := s.worldObjects;
    var found := Find(os, os[k].body);
    var j :| 0 <= j < |os| && os[j] == found.value;
    assert j == k;
    WithoutRemovesOne(os, k);
  }

  /** A side contact with a target never changes the state of a game that
      keeps the invariant. */
  lemma SideContactIsHarmless(s: GameState, other: BodyId, normalY: real)
    requires Inv(s) && !Hazard.Vertical(normalY)
    ensures Hazard.OnPlayerCollide(s, other, normalY).state == s
  {
  }

  /** The bullet's collide listener stays attached: a second contact of the
      same live bullet counts a second shot and schedules a second expiry. */
  lemma CollideIsNotOneShot(s: GameState, bullet: BodyId, first: BodyId, second: BodyId)
    requires Weapon.Live(s, bullet)
    ensures var a := Weapon.OnBulletCollide(s, bullet, first).state;
      var b := Weapon.OnBulletCollide(a, bullet, second).state;
      b.shotsFired == s.shotsFired + 2 && b.expiries == s.expiries + [bullet, bullet]
  {
    var a := Weapon.OnBulletCollide(s, bullet, first).state;
    assert a.bullets == s.bullets && a.removedBullets == s.removedBullets;
    assert Weapon.Live(a, bullet);
    assert s.expiries + [bullet] + [bullet] == s.expiries + [bullet, bullet];
  }
}

=== FILE: weapon.dfy ===
/**
  Shooting: the rate-limited fire gate, the bullet body's collide listener and
  the 5000 ms expiry timer that listener schedules.
 */
module Weapon {
  import opened World
  import Hazard

  /** The fire gate of `fireBulletIfNeeded`: the button is held and at least
      `FireRate` milliseconds passed since the last shot. */
  predicate CanFire(s: GameState, now: real) {
    s.input.isMouseDown && now - s.lastFireTime >= FireRate
  }

  /** The times of the bullets spawned among `fx`, in order. */
  function FireTimes(fx: seq<Effect>): (ts: seq<real>)
    ensures |ts| <= |fx|
  {
    if |fx| == 0 then []
    else (if fx[0].SpawnBullet? then [fx[0].at] else []) + FireTimes(fx[1..])
  }

  lemma {:induction false} FireTimesAppend(a: seq<Effect>, b: seq<Effect>)
    ensures FireTimes(a + b) == FireTimes(a) + FireTimes(b)
  {
    if |a| == 0 {
      assert a + b == b;
    } else {
      assert (a + b)[0] == a[0];
      assert (a + b)[1..] == a[1..] + b;
      FireTimesAppend(a[1..], b);
      var h := if a[0].SpawnBullet? then [a[0].at] else [];
      assert FireTimes(a + b) == h + (FireTimes(a[1..]) + FireTimes(b));
      assert h + (FireTimes(a[1..]) + FireTimes(b)) == (h + FireTimes(a[1..])) + FireTimes(b);
    }
  }

  /** `fireBulletIfNeeded` at time `now`: when the gate is open a new bullet
      body (the engine's next id) is appended to the bullet list and the shot
      time is remembered; otherwise nothing happens. */
  function FireBulletIfNeeded(s: GameState, now: real): (t: Transition)
    ensures CanFire(s, now) ==>
      && t.state.bullets == s.bullets + [s.nextBody]
      && t.state.nextBody == s.nextBody + 1
      && t.state.lastFireTime == now
    ensures !CanFire(s, now) ==> t == Transition(s, [])
    ensures FireTimes(t.effects) == if CanFire(s, now) then [now] else []
    ensures forall j :: 0 <= j < |t.effects| ==> t.effects[j] == PlaySound(Shoot) || t.effects[j].SpawnBullet?
    ensures t.state.lastFireTime != s.lastFireTime ==> t.state.lastFireTime - s.lastFireTime >= FireRate
    ensures SameVitals(s, t.state)
    ensures t.state.worldObjects == s.worldObjects && t.state.velocityY == s.velocityY
    ensures Hazard.CountOverlays(t.effects) == 0
  {
    if CanFire(s, now) then
      var fx := [PlaySound(Shoot), SpawnBullet(s.nextBody, now)];
      assert FireTimes(fx[1..]) == [now];
      Transition(s.(bullets := s.bullets + [s.nextBody], nextBody := s.nextBody + 1, lastFireTime := now), fx)
    else
      Transition(s, [])
  }

  /** A bullet body still in the physics world: the engine reports collisions
      only for these. */
  predicate Live(s: GameState, bullet: BodyId) {
    bullet in s.bullets && bullet !in s.removedBullets
  }

  /** The `if (cube)` block of the bullet's collide listener: the target is
      filtered out of the object list, the score rises by one and the player is
      healed by one point when below full health. */
  function HitTarget(s: GameState, obj: WorldObject): (t: Transition)
    ensures t.state.score == s.score + 1
    ensures t.state.health == if s.health < MaxHealth then s.health + 1 else s.health
    ensures forall o :: o in t.state.worldObjects <==> o in s.worldObjects && o != obj
    ensures t.state.(worldObjects := s.worldObjects, score := s.score, health := s.health) == s
    ensures |t.effects| > 0 && t.effects[0] == DespawnObject(obj.body)
    ensures Hazard.CountOverlays(t.effects) == 0
  {
    var health := if s.health < MaxHealth then s.health + 1 else s.health;
    Transition(
      s.(worldObjects := Without(s.worldObjects, obj), score := s.score + 1, health := health),
      HitEffects(s, obj))
  }

  /** What a hit asks of the renderer, engine and audio: drop the target's mesh
      and body, refresh the score, play the hit sound and, when the player was
      healed, refresh the health read-out. */
  function HitEffects(s: GameState, obj: WorldObject): (fx: seq<Effect>)
    ensures |fx| > 0 && fx[0] == DespawnObject(obj.body)
    ensures Hazard.CountOverlays(fx) == 0
  {
    var fx := [DespawnObject(obj.body), ShowScore(s.score + 1), PlaySound(Hit)];
    if s.health < MaxHealth then
      var more := [ShowHealth(s.health + 1)];
      Hazard.CountOverlaysAppend(fx, more);
      fx + more
    else
      fx
  }

  /** The unconditional tail of the bullet's collide listener: one more shot
      counted, the aggro flag raised once the count passes the threshold, and
      another expiry timer scheduled for this bullet. */
  function CountShot(s: GameState, bullet: BodyId): (t: Transition)
    ensures t.state.shotsFired == s.shotsFired + 1
    ensures t.state.neverForget == (s.neverForget || s.shotsFired + 1 > AggroThreshold)
    ensures t.state.expiries == s.expiries + [bullet]
    ensures t.state.(shotsFired := s.shotsFired, neverForget := s.neverForget, expiries := s.expiries) == s
    ensures |t.effects| == 0
  {
    var shots := s.shotsFired + 1;
    var aggro := if shots > AggroThreshold then true else s.neverForget;
    Transition(s.(shotsFired := shots, neverForget := aggro, expiries := s.expiries + [bullet]), [])
  }

  /** The bullet body's collide listener. It is not removed after the first
      hit: every collide event of a live bullet counts a shot and schedules
      another expiry. */
  function OnBulletCollide(s: GameState, bullet: BodyId, other: BodyId): (t: Transition)
    ensures !Live(s, bullet) ==> t == Transition(s, [])
    ensures Live(s, bullet) ==>
      && t.state.shotsFired == s.shotsFired + 1
      && t.state.expiries == s.expiries + [bullet]
      && t.state.neverForget == (s.neverForget || s.shotsFired + 1 > AggroThreshold)
    ensures Live(s, bullet) && Find(s.worldObjects, other).Some? ==>
      && t.state.score == s.score + 1
      && t.state.health == (if s.health < MaxHealth then s.health + 1 else s.health)
      && t.state.worldObjects == Without(s.worldObjects, Find(s.worldObjects, other).value)
    ensures Find(s.worldObjects, other).None? ==>
      t.state.worldObjects == s.worldObjects && t.state.score == s.score && t.state.health == s.health
    ensures t.state.bullets == s.bullets && t.state.isDead == s.isDead
    ensures t.state.moveUp == s.moveUp && t.state.input == s.input && t.state.lastFireTime == s.lastFireTime
    ensures t.state.velocityY == s.velocityY && t.state.nextBody == s.nextBody
    ensures t.state.removedBullets == s.removedBullets && t.state.stepping == s.stepping
    ensures Hazard.CountOverlays(t.effects) == 0
  {
    if !Live(s, bullet) then
      Transition(s, [])
    else
      var hit := match Find(s.worldObjects, other)
        case Some(obj) => HitTarget(s, obj)
        case None => Transition(s, []);
      var counted := CountShot(hit.state, bullet);
      Transition(counted.state, hit.effects)
  }

  /** The oldest pending 5000 ms expiry timer firing (all timers have the same
      delay, so they fire in the order they were scheduled). The bullet's mesh
      and body go and one shot is uncounted; the bullet list is left as it is,
      because its filter compares each `{mesh, body}` record with the bare mesh
      and so never drops anything. With no timer pending nothing happens. */
  function OnBulletExpiry(s: GameState): (t: Transition)
    ensures |s.expiries| == 0 ==> t == Transition(s, [])
    ensures |s.expiries| > 0 ==>
      && t.state.shotsFired == s.shotsFired - 1
      && t.state.expiries == s.expiries[1..]
      && !Live(t.state, s.expiries[0])
      && t.state.removedBullets == s.removedBullets + {s.expiries[0]}
    ensures t.state.bullets == s.bullets
    ensures t.state.(shotsFired := s.shotsFired, expiries := s.expiries, removedBullets := s.removedBullets) == s
    ensures Hazard.CountOverlays(t.effects) == 0
  {
    if |s.expiries| == 0 then
      Transition(s, [])
    else
      var bullet := s.expiries[0];
      Transition(
        s.(expiries := s.expiries[1..],
           shotsFired := s.shotsFired - 1,
           removedBullets := s.removedBullets + {bullet}),
        [DespawnBullet(bullet)])
  }

  /** Effects that spawn nothing fire nothing. */
  lemma {:induction false} NoFireTimes(fx: seq<Effect>)
    requires forall e :: e in fx ==> !e.SpawnBullet?
    ensures FireTimes(fx) == []
  {
    if |fx| > 0 {
      assert fx[0] in fx;
      assert forall e :: e in fx[1..] ==> e in fx;
      NoFireTimes(fx[1..]);
      assert FireTimes(fx) == [] + FireTimes(fx[1..]);
    }
  }

  /** The bullet's collide listener and its expiry timer only report, sound
      and remove. */
  lemma BulletEventsAreInert(s: GameState, bullet: BodyId, other: BodyId)
    ensures Inert(OnBulletCollide(s, bullet, other).effects)
    ensures Inert(OnBulletExpiry(s).effects)
  {
    var target := Find(s.worldObjects, other);
    if target.Some? {
      HitIsInert(s, target.value);
    }
  }

  lemma HitIsInert(s: GameState, obj: WorldObject)
    ensures Inert(HitEffects(s, obj))
  {
    var fx := [DespawnObject(obj.body), ShowScore(s.score + 1), PlaySound(Hit)];
    InertAppend(fx, [ShowHealth(s.health + 1)]);
  }
}

=== FILE: world.dfy ===
/**
  The game's bookkeeping state: the module-level variables of the game script
  (health, score, shot counter, one-way flags, fire timing, the vertical
  velocity accumulator, the live target objects and the bullet list), gathered
  into one immutable record, plus the side effects a handler asks of the
  renderer, physics engine, audio and overlay.
 */
module World {

  /** Physics body ids; the engine hands them out from one counter. */
  type BodyId = nat

  datatype Option<T> = None | Some(value: T)

  datatype Shape = Cube | Sphere

  /** A spawned target: its physics body (the paired mesh has no state here). */
  datatype WorldObject = WorldObject(body: BodyId, shape: Shape)

  datatype Sound = Oof | Dead | Jump | Shoot | Hit

  /** What a handler asks of its collaborators, in order. */
  datatype Effect =
    | PlaySound(sound: Sound)
    | ShowHealth(health: int)             // health read-out (Hud.HeartString of it) and screen tint
    | ShowScore(score: int)               // score read-out refresh
    | ShowGameOver                        // overlay, text, restart button, star link
    | PlayMusic
    | PauseMusic
    | UnlockControls
    | JumpImpulse                         // impulse jumpSpeed * mass straight up
    | SpawnObject(obj: WorldObject)       // mesh + body of a new target
    | SpawnBullet(body: BodyId, at: real) // mesh + body of a new bullet, fired at time `at`
    | DespawnObject(body: BodyId)         // mesh removed now, body removed on the next tick
    | DespawnBullet(body: BodyId)         // mesh and body removed by the expiry timer
    | PushObjects(bodies: seq<BodyId>)    // force towards the player on each listed body

  /** An effect that creates a body or sets one in motion. */
  predicate Moves(e: Effect) {
    e.SpawnObject? || e.SpawnBullet? || e.JumpImpulse? || e.PushObjects?
  }

  /** Effects that only report, sound or remove: the kind contact, timer and
      most input handlers ask for. */
  predicate Inert(fx: seq<Effect>) {
    forall e :: e in fx ==> !Moves(e)
  }

  lemma InertAppend(a: seq<Effect>, b: seq<Effect>)
    ensures Inert(a + b) <==> Inert(a) && Inert(b)
  {
    if Inert(a) && Inert(b) {
      forall e | e in a + b ensures !Moves(e) {
        assert e in a || e in b;
      }
    }
    if Inert(a + b) {
      forall e | e in a ensures !Moves(e) {
        assert e in a + b;
      }
      forall e | e in b ensures !Moves(e) {
        assert e in a + b;
      }
    }
  }

  const MaxHealth: int := 3
  /** shotsFired above this makes the targets chase the player for good. */
  const AggroThreshold: int := 100
  /** Milliseconds between shots: 1000 / 600 * 60, which is exactly 100. */
  const FireRate: real := 1000.0 / 600.0 * 60.0
  /** Resting eye height of the player. */
  const GroundHeight: real := 1.8
  const Gravity: real := -9.81
  const JumpSpeed: real := 5.0
  /** Per-frame chance of spawning a cube, and separately a sphere. */
  const SpawnChance: real := 0.05

  /** Input latched by the key, mouse and pointer-lock listeners. The four
      movement flags only steer the horizontal velocity. */
  datatype Input = Input(
    moveForward: bool,
    moveBackward: bool,
    moveLeft: bool,
    moveRight: bool,
    pointerLocked: bool,
    isMouseDown: bool)

  datatype GameState = GameState(
    health: int,                 // playerHealthPoints
    score: int,
    shotsFired: int,
    isDead: bool,
    neverForget: bool,           // the aggro flag
    moveUp: bool,                // ascending after a jump
    stepping: bool,              // a frame is inside its physics step: its second half is still to run
    input: Input,                // latched keyboard, mouse and pointer-lock state
    lastFireTime: real,
    velocityY: real,
    worldObjects: seq<WorldObject>,
    bullets: seq<BodyId>,        // every bullet ever fired: the list is never filtered
    expiries: seq<BodyId>,       // pending 5000 ms expiry timers, oldest first, one per bullet collide event
    removedBullets: set<BodyId>, // bullet bodies an expiry timer took out of the physics world
    nextBody: BodyId             // id the engine gives the next body it creates
  )

  /** A handler's result: the new state and the effects it requested. */
  datatype Transition = Transition(state: GameState, effects: seq<Effect>)

  /** The state after start-up. Terrain and player bodies already hold the ids
      below `firstBody`. */
  function Init(firstBody: BodyId): (s: GameState)
    ensures s.health == MaxHealth && s.score == 0 && s.shotsFired == 0
    ensures !s.isDead && !s.neverForget && s.moveUp && !s.stepping
    ensures |s.worldObjects| == 0 && |s.bullets| == 0 && |s.expiries| == 0 && |s.removedBullets| == 0
    ensures s.lastFireTime == 0.0 && s.velocityY == 0.0 && s.nextBody == firstBody
    ensures s.input == Input(false, false, false, false, false, false)
  {
    GameState(
      health := MaxHealth, score := 0, shotsFired := 0,
      isDead := false, neverForget := false, moveUp := true, stepping := false,
      input := Input(false, false, false, false, false, false),
      lastFireTime := 0.0, velocityY := 0.0,
      worldObjects := [], bullets := [], expiries := [], removedBullets := {},
      nextBody := firstBody)
  }

  /** Index of the first object whose body is `id`, or |os| if there is none
      (the position `Array.find` stops at). */
  function IndexOf(os: seq<WorldObject>, id: BodyId): (k: nat)
    ensures k <= |os|
    ensures k < |os| ==> os[k].body == id
    ensures forall j :: 0 <= j < k ==> os[j].body != id
  {
    if |os| == 0 then 0
    else if os[0].body == id then 0
    else 1 + IndexOf(os[1..], id)
  }

  /** The first object whose body is `id` (`worldObjects.find`). */
  function Find(os: seq<WorldObject>, id: BodyId): (r: Option<WorldObject>)
    ensures r.None? <==> forall j :: 0 <= j < |os| ==> os[j].body != id
    ensures r.Some? ==> r.value in os && r.value.body == id
  {
    var k := IndexOf(os, id);
    if k < |os| then Some(os[k]) else None
  }

  /** `os.filter(c => c !== o)`: every entry other than `o`, in order. */
  function Without(os: seq<WorldObject>, o: WorldObject): (r: seq<WorldObject>)
    ensures forall x :: x in r <==> x in os && x != o
    ensures |r| <= |os|
  {
    if |os| == 0 then []
    else if os[0] == o then Without(os[1..], o)
    else [os[0]] + Without(os[1..], o)
  }

  function Bodies(os: seq<WorldObject>): (ids: seq<BodyId>)
    ensures |ids| == |os|
    ensures forall j :: 0 <= j < |os| ==> ids[j] == os[j].body
  {
    seq(|os|, j requires 0 <= j < |os| => os[j].body)
  }

  predicate DistinctBodies(os: seq<WorldObject>) {
    forall i, j :: 0 <= i < j < |os| ==> os[i].body != os[j].body
  }

  predicate DistinctIds(ids: seq<BodyId>) {
    forall i, j :: 0 <= i < j < |ids| ==> ids[i] != ids[j]
  }

  /** `a` and `b` agree on everything but the spawned bodies (target list,
      bullet list, next body id), the last fire time, the vertical
      accumulator and the frame phase: the part of the state a frame leaves
      alone. */
  predicate SameVitals(a: GameState, b: GameState) {
    && a.health == b.health && a.score == b.score && a.shotsFired == b.shotsFired
    && a.isDead == b.isDead && a.neverForget == b.neverForget && a.moveUp == b.moveUp
    && a.input == b.input && a.expiries == b.expiries && a.removedBullets == b.removedBullets
  }

  /** The invariant every reachable state keeps. */
  ghost predicate Inv(s: GameState) {
    && 0 <= s.health <= MaxHealth
    && s.score >= 0
    && (s.health == 0 ==> s.isDead)
    && s.shotsFired == |s.expiries|
    && s.velocityY <= 0.0
    && DistinctBodies(s.worldObjects)
    && DistinctIds(s.bullets)
    && (forall j :: 0 <= j < |s.worldObjects| ==> s.worldObjects[j].body < s.nextBody)
    && (forall j :: 0 <= j < |s.bullets| ==> s.bullets[j] < s.nextBody)
    && (forall j :: 0 <= j < |s.expiries| ==> s.expiries[j] in s.bullets)
    && s.removedBullets <= set b | b in s.bullets
  }

  /** With distinct bodies, removing the object at `k` keeps all others in order. */
  lemma {:induction false} WithoutRemovesOne(os: seq<WorldObject>, k: nat)
    requires DistinctBodies(os) && k < |os|
    ensures Without(os, os[k]) == os[..k] + os[k + 1..]
  {
    var tail := os[1..];
    assert DistinctBodies(tail) by {
      forall i, j | 0 <= i < j < |tail| ensures tail[i].body != tail[j].body {
        assert tail[i] == os[i + 1] && tail[j] == os[j + 1];
      }
    }
    if k == 0 {
      forall j | 0 <= j < |tail| ensures tail[j] != os[0] {
        assert tail[j] == os[j + 1];
      }
      WithoutAbsent(tail, os[0]);
      assert os[..0] + os[1..] == tail;
    } else {
      assert os[0].body != os[k].body;
      assert tail[k - 1] == os[k];
      WithoutRemovesOne(tail, k - 1);
      assert Without(os, os[k]) == [os[0]] + Without(tail, os[k]);
      assert tail[..k - 1] == os[1..k];
      assert tail[k..] == os[k + 1..];
      assert [os[0]] + os[1..k] == os[..k];
    }
  }

  /** Removing an entry that is not present changes nothing. */
  lemma {:induction false} WithoutAbsent(os: seq<WorldObject>, o: WorldObject)
    requires o !in os
    ensures Without(os, o) == os
  {
    if |os| > 0 {
      assert os[0] != o;
      WithoutAbsent(os[1..], o);
      assert [os[0]] + os[1..] == os;
    }
  }

  /** Distinct bodies stay distinct when entries are removed. */
  lemma {:induction false} WithoutKeepsDistinct(os: seq<WorldObject>, o: WorldObject)
    requires DistinctBodies(os)
    ensures DistinctBodies(Without(os, o))
  {
    if |os| > 0 {
      assert DistinctBodies(os[1..]);
      WithoutKeepsDistinct(os[1..], o);
      if os[0] != o {
        var rest := Without(os[1..], o);
        forall x | x in rest ensures x.body != os[0].body {
          assert x in os[1..];
          var j :| 0 <= j < |os[1..]| && os[1..][j] == x;
          assert os[j + 1] == x;
        }
        var r := [os[0]] + rest;
        forall i, j | 0 <= i < j < |r| ensures r[i].body != r[j].body {
          if i == 0 {
            assert r[j] in rest;
          } else {
            assert r[i] == rest[i - 1] && r[j] == rest[j - 1];
          }
        }
      }
    }
  }
}
